=== FILE: README.md ===
# Tutoring help queue: ticket lifecycle model

A Dafny model of the server side of a tutoring help queue. Students submit
help tickets. Tutors log in, receive a JWT, and claim tickets. A local-only
script seeds the admin account. Each of the four HTTP handlers is a pure
function from (request, database, environment) to (response, database).

- `wrappers.dfy`: `Option`, which stands for JavaScript's absent values.
- `text.dfy`: truthiness of an optional string, `includes`, and `split(' ')[1]`.
- `model.dfy`: the documents (`Ticket`, `User`), the database `Db` with both
  collections keyed by `_id`, the response bodies, and the environment `Env`.
- `store.dfy`: the MongoDB operations the handlers use. `insertOne` refuses a
  duplicate `_id`. `findOne` by username returns the oldest match. `updateOne`
  with the claim `$set` reports `modifiedCount` 0 when the values are already
  stored.
- `tickets.dfy`, `claim.dfy`, `login.dfy`, `seed_user.dfy`: the four handlers.
- `lifecycle.dfy`: the handlers as one service serving a sequence of
  requests. It holds the invariants such a sequence keeps and the
  consequences of the claim filter.
- `scenario.dfy`: a concrete run. Tutor Josh claims Ann's ticket, then
  tutor Mia claims the same ticket.

External collaborators are fields of `Env` and are treated as unknown functions:

- `jwtSign`, `jwtVerify`: JWT signing and verification with the server's secret.
  Verification folds in the expiry check and the clock.
- `bcryptCompare`: the bcrypt comparison.
- `parseObjectId`, `formatObjectId`: `new ObjectId(s)` and the id's hex form.
- `now`: the clock.
- `nextId`: the id the driver assigns to the next inserted document.
- `storeFails`: some database call of this request throws.

Lemmas that compose handlers take the property they need as a hypothesis.
For example, "the verifier accepts what the signer produced" is a hypothesis.

The claim handler's own 404 message, "Ticket not found or already claimed" (`api/claim.ts:49`), promises a refused second claim. The other handlers answer a store error with 500 (`api/tickets.ts:46`, `api/login.ts:48`, `api/seed-user.ts:40`). The claim handler does neither, and the model follows its code:

- The claim update is unconditional; see Findings.
- A store error during a claim answers 401, not 500.
- "Not found" and "already claimed" share one 404.
- A missing `ticketId` answers 404. `new ObjectId(undefined)` generates a
  fresh id, and no ticket has it.

## Model

| member | source | states |
|---|---|---|
| Text.ContainsIffOccurs | api/seed-user.ts:7 | the `includes` scan answers true exactly when the substring occurs at some position |
| Text.JoinSplit | api/claim.ts:19 | splitting on the separator loses nothing: joining the pieces gives the header back |
| Text.SplitJoin | api/claim.ts:19 | separator-free pieces, joined and split again, come back unchanged |
| Text.Split | api/claim.ts:19 | `split(' ')` yields at least one piece and no piece contains a space |
| Text.BearerToken | api/claim.ts:19 | `split(' ')[1]` is defined exactly when the header holds a space, and the token then holds none |
| Text.BearerTokenOfBearer | src/components/Dashboard.tsx:60 | the `Bearer <token>` header the dashboard sends yields that same token |
| Store.InsertOne | api/tickets.ts:41 | insertion succeeds exactly when the id is unused, adds exactly that document and keeps all others |
| Store.FindByUsername | api/login.ts:24 | returns none exactly when no user has the name; otherwise it returns a user with that name, the oldest such user |
| Store.SetClaim | api/claim.ts:38-46 | matches at most the document with the id (and status, when the filter asks); modifies it exactly when the `$set` changes a value; only status and claimedBy of that one document change |
| Tickets.Create | api/tickets.ts:21-48 | 400 exactly when a field is missing or empty; 201 exactly for a complete body with a working store and an unused id; a created ticket is New, unclaimed, without notes, stamped with the clock, its four fields copied verbatim; every existing ticket is kept; 500 and nothing stored otherwise |
| Tickets.Newest | api/tickets.ts:55 | picks a stored ticket no older than any other |
| Tickets.Listing | api/tickets.ts:53-56 | the listing holds every stored ticket exactly once, under its own id, ordered by createdAt most recent first |
| Tickets.List | api/tickets.ts:50-63 | GET never changes the database; 500 exactly on a store error, otherwise 200 with the full newest-first listing |
| Tickets.Handle | api/tickets.ts:16-66 | a method other than POST or GET answers 405; only POST changes the database, and only by adding one New ticket; no existing ticket is altered |
| Claim.Authenticate | api/claim.ts:19-33 | the caller is a tutor exactly when the token verifies, its userId parses, the store works and that user exists; a verified id with no user answers "User not found"; every other rejection is the 401 "Invalid or expired token" |
| Claim.Handle | api/claim.ts:8-58 | non-POST answers 405 and a missing header 401, with nothing changed; 401 exactly when authentication fails or the id is malformed, with the body authentication chose ("User not found" for a verified id with no user, "Invalid or expired token" otherwise); 404, always "Ticket not found or already claimed", exactly when the ticket is absent or already In Progress under this tutor; a malformed body or id gives the catch-all "Invalid or expired token"; otherwise 200 whatever the ticket's status; on 200 only the target's status and claimedBy change, to In Progress and the tutor's username |
| Claim.HandleGuarded | api/claim.ts:38-50 | the claim with the `{ _id, status: 'New' }` filter, with the same 405, 401 and 404 answers as the handler as written: 200 exactly when the ticket exists and is New; a ticket that is not New is never altered |
| Login.ClaimsFor | api/login.ts:37-41 | the token payload carries the user's id and role, issued at the current second, expiring one hour later |
| Login.Handle | api/login.ts:8-49 | never changes the database; non-POST answers 405; 400 exactly for a missing or empty username or password; 500 exactly for an unreadable body or a store error; 200 exactly when the user exists and the password matches, with a token signed over that user's claims; every 401 is the same "Invalid credentials" |
| Login.FailuresIndistinguishable | api/login.ts:24-33 | an unknown username and a wrong password get identical responses |
| SeedUser.Handle | api/seed-user.ts:5-41 | 403 with nothing changed exactly when the Host header lacks "localhost"; 400 exactly when a tutor_admin already exists; 201 exactly when none exists and the insert succeeds, adding one admin record with the hashed password and keeping every other user; tickets are never touched |
| SeedUser.SeedKeepsAdminUnique | api/seed-user.ts:25-35 | seeding never makes more than one tutor_admin, and a 201 leaves exactly the new record under that name |
| SeedUser.SecondSeedRefused | api/seed-user.ts:25-28 | after a successful seed, a second run answers 400 and changes nothing |
| Lifecycle.ApplyPreserves | api/claim.ts:41-44 | every endpoint keeps "claimedBy is null exactly when status is New", keeps every ticket, and never returns a ticket to New |
| Lifecycle.RunPreserves | api/tickets.ts:35-37 | any sequence of requests keeps that invariant and never returns a claimed ticket to New |
| Lifecycle.ApplyGuardedKeepsClaimed | api/claim.ts:38-39 | with the conditional update, no request alters a ticket that has left New |
| Lifecycle.GuardedClaimIsFinal | api/claim.ts:48-50 | with the conditional update, whatever requests follow, a claimed ticket keeps its status and claimant |
| Lifecycle.TwoClaimsBothSucceed | api/claim.ts:38-52 | as written, two different tutors claiming one ticket in turn both get 200, and the second becomes the claimant |
| Lifecycle.GuardedSecondClaimRefused | api/claim.ts:48-49 | with the conditional update, the second tutor gets 404 and the ticket stays with the first |
| Lifecycle.SeededAdminCanLogIn | api/seed-user.ts:30-35 | the seeded admin can log in with the script's password, given that bcrypt accepts it against the stored hash |
| Scenario.MiaTakesOverJoshsTicket | api/claim.ts:38-52 | as written, Josh claims Ann's New ticket and then Mia claims it; both get 200 and Mia holds the ticket |
| Scenario.MiaRefusedWhenGuarded | api/claim.ts:48-49 | with the conditional update, the same run gives Mia a 404 and Josh keeps the ticket |
| Lifecycle.LoginTokenAuthenticatesClaim | api/claim.ts:23-30 | the login token, sent as `Bearer <token>` before its hour is up, authenticates the claim as the same user |

## Left out

- The MongoDB connection (`clientPromise`) is not modelled. In `api/tickets.ts` and `api/seed-user.ts` it is awaited outside the `try`, so its failure is not a handler response. Inside `try` blocks, `storeFails` covers it.
- Concurrency and the atomicity of `updateOne` are not modelled. Requests are served one after another.
- JWT signing and verification, real expiry time, and bcrypt hashing and comparison are not modelled. They are `Env` functions, and the salted hash is a parameter of `SeedUser.Handle`.
- A `bcrypt.hash` failure in the seeding script is not modelled. It is awaited outside the `try`.
- Field values that are not strings are not modelled. A request body may be a JSON string or an object the platform has already parsed; both reach the handler as the same record of optional strings, and a body that cannot be parsed or destructured is the absent record. A number, boolean, object or array in a field is out of scope; a null field is the absent value, as JavaScript treats `null` and `undefined` alike in every check the handlers make. One example: an object-valued `username` would reach `findOne({ username })` as a query operator (`api/login.ts:24`).
- Claim.Authenticate: a token whose payload has no `userId` is not modelled. The payload always carries one, as every token the login handler signs does.
- Store.FindByUsername: natural order is approximated by the least id, which is the oldest for ids the driver generates.
- The React client is not modelled: rendering, routing, localStorage and the 5-second polling. Its "Claim" button is shown only for New tickets (`src/components/Dashboard.tsx:138`), but the server does not enforce this.
- `api/test.js`, a connectivity ping, is not modelled.
- Logging (`console.error`, `console.log`) is not modelled.

## Findings

| source | as written | input that shows it | evidently intended | confidence | as-written member | corrected member |
|---|---|---|---|---|---|---|
| api/claim.ts:38-46 | the update filter is `{ _id }` only, so the current status is never checked | ticket In Progress claimed by tutor A; tutor B claims it; B gets 200 and `claimedBy` becomes B | filter `{ _id, status: 'New' }`, so a second claim gets the 404 "already claimed" of line 49 and the first claimant keeps the ticket | medium, not executed | Claim.Handle, exhibited by Lifecycle.TwoClaimsBothSucceed and Scenario.MiaTakesOverJoshsTicket | Claim.HandleGuarded, with Lifecycle.GuardedSecondClaimRefused, Lifecycle.GuardedClaimIsFinal and Scenario.MiaRefusedWhenGuarded |

Both claim variants stay in the model. `Claim.Handle` describes the endpoint as deployed. `Lifecycle.Run` takes the claim filter as a parameter, so each service-level invariant is proved for both variants.

=== FILE: claim.dfy ===
/**
 * `/api/claim`: a tutor, identified by the bearer token in the
 * Authorization header, claims a ticket by id. The update that records the
 * claim is filtered on the ticket id alone (`Handle`); `HandleGuarded` is
 * the same handler with the filter also requiring `status: 'New'`, the
 * behaviour the handler's own 404 message describes.
 */
module Claim {
  import opened Wrappers
  import opened Model
  import opened Text
  import Store

  /** The JSON body: `{ ticketId }`, the id possibly absent. */
  datatype ClaimBody = ClaimBody(ticketId: Option<string>)

  /** A request. A body of None is one that does not parse or destructure (it throws). */
  datatype Request = Request(verb: string, authorization: Option<string>, body: Option<ClaimBody>)

  const NoToken := Response(401, ErrorBody("No token provided"))
  const UserNotFound := Response(401, ErrorBody("User not found"))
  const InvalidToken := Response(401, ErrorBody("Invalid or expired token"))
  const NotClaimed := Response(404, ErrorBody("Ticket not found or already claimed"))
  const ClaimedOk := Response(200, MessageBody("Ticket claimed successfully"))

  /** The outcome of resolving the Authorization header to a user record. */
  datatype Caller = Rejected(response: Response) | Tutor(id: ObjectId, user: User)

  /**
   * The user id a header's token names: strip the scheme, verify the JWT,
   * parse its `userId` claim. None when any step throws.
   */
  function TokenUserId(header: string, env: Env): Option<ObjectId> {
    match BearerToken(header)
    case None => None
    case Some(token) =>
      match env.jwtVerify(token)
      case None => None
      case Some(claims) => env.parseObjectId(claims.userId)
  }

  /** Resolve the header to the tutor's record: `users.findOne({ _id })`. */
  function Authenticate(header: string, db: Db, env: Env): (c: Caller)
    ensures c.Tutor? <==> TokenUserId(header, env).Some? && !env.storeFails && TokenUserId(header, env).value in db.users
    ensures c.Tutor? ==> c.id == TokenUserId(header, env).value && c.user == db.users[c.id]
    ensures c.Rejected? ==> c.response.status == 401
    ensures c.Rejected? ==> c.response in {UserNotFound, InvalidToken}
    ensures c.Rejected? && c.response == UserNotFound <==>
      TokenUserId(header, env).Some? && !env.storeFails && TokenUserId(header, env).value !in db.users
  {
    match TokenUserId(header, env)
    case None => Rejected(InvalidToken)
    case Some(id) =>
      if env.storeFails then Rejected(InvalidToken)
      else if id !in db.users then Rejected(UserNotFound)
      else Tutor(id, db.users[id])
  }

  /** What the body's `ticketId` designates. */
  datatype Target = Malformed | NoTicketId | TicketId(id: ObjectId)

  /**
   * `new ObjectId(ticketId)`: a body that throws, or an id string that does
   * not parse, is `Malformed`; an absent id yields a freshly generated
   * ObjectId, which matches no stored ticket (`NoTicketId`).
   */
  function TargetOf(body: Option<ClaimBody>, env: Env): Target {
    match body
    case None => Malformed
    case Some(b) =>
      match b.ticketId
      case None => NoTicketId
      case Some(s) =>
        match env.parseObjectId(s)
        case None => Malformed
        case Some(id) => TicketId(id)
  }

  /** The request is a POST whose header resolves to a stored user. */
  predicate Authenticated(req: Request, db: Db, env: Env) {
    req.verb == "POST" && Truthy(req.authorization) && Authenticate(req.authorization.value, db, env).Tutor?
  }

  /** The username of the authenticated tutor. */
  function TutorName(req: Request, db: Db, env: Env): string
    requires Authenticated(req, db, env)
  {
    Authenticate(req.authorization.value, db, env).user.username
  }

  /** The ticket is already In Progress and held by `name`: the `$set` would change nothing. */
  predicate HeldBy(t: Ticket, name: string) {
    t.status == InProgress && t.claimedBy == Some(name)
  }

  /** The decision tree, with the update's filter as a parameter. */
  function Process(req: Request, db: Db, env: Env, requiredStatus: Option<Status>): Outcome {
    if req.verb != "POST" then Outcome(MethodNotAllowed, db)
    else if !Truthy(req.authorization) then Outcome(NoToken, db)
    else
      match Authenticate(req.authorization.value, db, env)
      case Rejected(response) => Outcome(response, db)
      case Tutor(_, tutor) =>
        match TargetOf(req.body, env)
        case Malformed => Outcome(InvalidToken, db)
        case NoTicketId => Outcome(NotClaimed, db)
        case TicketId(id) =>
          var result := Store.SetClaim(db.tickets, id, requiredStatus, tutor.username);
          if result.modifiedCount == 0 then Outcome(NotClaimed, db)
          else Outcome(ClaimedOk, db.(tickets := result.tickets))
  }

  /** The handler as written: the update's filter is `{ _id }` only. */
  function Handle(req: Request, db: Db, env: Env): (out: Outcome)
    ensures req.verb != "POST" ==> out == Outcome(MethodNotAllowed, db)
    ensures req.verb == "POST" && !Truthy(req.authorization) ==> out == Outcome(NoToken, db)
    ensures out.db.users == db.users && out.db.tickets.Keys == db.tickets.Keys
    ensures out.response.status in {200, 401, 404, 405}
    ensures out.response.status != 200 ==> out.db == db
    ensures out.response.status == 401 <==>
      req.verb == "POST" && (!Authenticated(req, db, env) || TargetOf(req.body, env).Malformed?)
    ensures out.response.status == 404 ==> out.response == NotClaimed
    ensures out.response.status == 401 ==> out.response in {NoToken, UserNotFound, InvalidToken}
    ensures req.verb == "POST" && Truthy(req.authorization) && Authenticate(req.authorization.value, db, env).Rejected? ==>
      out == Outcome(Authenticate(req.authorization.value, db, env).response, db)
    ensures Authenticated(req, db, env) && TargetOf(req.body, env).Malformed? ==> out.response == InvalidToken
    ensures Authenticated(req, db, env) && TargetOf(req.body, env).NoTicketId? ==> out.response == NotClaimed
    ensures Authenticated(req, db, env) && TargetOf(req.body, env).TicketId? ==>
      var id := TargetOf(req.body, env).id;
      var name := TutorName(req, db, env);
      && (out.response.status == 404 <==> id !in db.tickets || HeldBy(db.tickets[id], name))
      && (out.response.status == 200 <==> id in db.tickets && !HeldBy(db.tickets[id], name))
    ensures out.response.status == 200 ==> out.response == ClaimedOk
    ensures out.response.status == 200 ==>
      && Authenticated(req, db, env) && TargetOf(req.body, env).TicketId?
      && var id := TargetOf(req.body, env).id;
      && id in db.tickets
      && out.db.tickets.Keys == db.tickets.Keys
      && out.db.tickets[id].status == InProgress
      && out.db.tickets[id].claimedBy == Some(TutorName(req, db, env))
      && out.db.tickets[id].(status := db.tickets[id].status, claimedBy := db.tickets[id].claimedBy) == db.tickets[id]
      && forall k :: k in db.tickets && k != id ==> out.db.tickets[k] == db.tickets[k]
  {
    Process(req, db, env, None)
  }

  /**
   * The handler with the conditional update `{ _id, status: 'New' }`: only a
   * New ticket can be claimed, and a claimed ticket is never taken over.
   */
  function HandleGuarded(req: Request, db: Db, env: Env): (out: Outcome)
    ensures req.verb != "POST" ==> out == Outcome(MethodNotAllowed, db)
    ensures req.verb == "POST" && !Truthy(req.authorization) ==> out == Outcome(NoToken, db)
    ensures out.db.users == db.users && out.db.tickets.Keys == db.tickets.Keys
    ensures out.response.status in {200, 401, 404, 405}
    ensures out.response.status != 200 ==> out.db == db
    ensures out.response.status == 401 <==>
      req.verb == "POST" && (!Authenticated(req, db, env) || TargetOf(req.body, env).Malformed?)
    ensures out.response.status == 404 ==> out.response == NotClaimed
    ensures out.response.status == 401 ==> out.response in {NoToken, UserNotFound, InvalidToken}
    ensures req.verb == "POST" && Truthy(req.authorization) && Authenticate(req.authorization.value, db, env).Rejected? ==>
      out == Outcome(Authenticate(req.authorization.value, db, env).response, db)
    ensures Authenticated(req, db, env) && TargetOf(req.body, env).Malformed? ==> out.response == InvalidToken
    ensures Authenticated(req, db, env) && TargetOf(req.body, env).TicketId? ==>
      var id := TargetOf(req.body, env).id;
      (out.response.status == 200 <==> id in db.tickets && db.tickets[id].status == New)
    ensures forall id :: id in db.tickets && db.tickets[id].status != New ==> out.db.tickets[id] == db.tickets[id]
    ensures out.response.status == 200 ==>
      && Authenticated(req, db, env) && TargetOf(req.body, env).TicketId?
      && var id := TargetOf(req.body, env).id;
      && id in db.tickets && db.tickets[id].status == New
      && out.db.tickets.Keys == db.tickets.Keys
      && out.db.tickets[id].status == InProgress
      && out.db.tickets[id].claimedBy == Some(TutorName(req, db, env))
      && out.db.tickets[id].(status := db.tickets[id].status, claimedBy := db.tickets[id].claimedBy) == db.tickets[id]
      && forall k :: k in db.tickets && k != id ==> out.db.tickets[k] == db.tickets[k]
  {
    Process(req, db, env, Some(New))
  }
}

=== FILE: lifecycle.dfy ===
/**
 * The handlers as one service acting on one database, one request after
 * another: the invariants a sequence of requests keeps, and what the claim
 * filter does and does not guarantee about who holds a ticket.
 */
module Lifecycle {
  import opened Wrappers
  import opened Model
  import Tickets
  import Claim
  import Login
  import SeedUser
  import Text

  /** A ticket names a claimant exactly when it has left New. */
  ghost predicate ClaimConsistent(tickets: map<ObjectId, Ticket>) {
    forall id :: id in tickets ==> (tickets[id].claimedBy.None? <==> tickets[id].status == New)
  }

  /** Which update filter the claim endpoint uses. */
  datatype ClaimFilter =
    | IdOnly     // `{ _id }`, as the handler is written
    | IdAndNew   // `{ _id, status: 'New' }`, the conditional update

  /** One request to one of the endpoints, with the environment it meets. */
  datatype Call =
    | TicketsCall(tickets: Tickets.Request, env: Env)
    | ClaimCall(claim: Claim.Request, env: Env)
    | LoginCall(login: Login.Request, env: Env)
    | SeedCall(seed: SeedUser.Request, env: Env, hashed: string)

  /** Serve one request. */
  function Apply(db: Db, call: Call, filter: ClaimFilter): Outcome {
    match call
    case TicketsCall(req, env) => Tickets.Handle(req, db, env)
    case ClaimCall(req, env) =>
      if filter == IdOnly then Claim.Handle(req, db, env) else Claim.HandleGuarded(req, db, env)
    case LoginCall(req, env) => Login.Handle(req, db, env)
    case SeedCall(req, env, hashed) => SeedUser.Handle(req, db, env, hashed)
  }

  /** Serve the requests in order, each seeing the database the previous one left. */
  function Run(db: Db, calls: seq<Call>, filter: ClaimFilter): Db
    decreases |calls|
  {
    if |calls| == 0 then db
    else Run(Apply(db, calls[0], filter).db, calls[1..], filter)
  }

  /** Every endpoint keeps `claimedBy` null exactly on New tickets, and keeps every stored ticket. */
  lemma ApplyPreserves(db: Db, call: Call, filter: ClaimFilter)
    requires ClaimConsistent(db.tickets)
    ensures ClaimConsistent(Apply(db, call, filter).db.tickets)
    ensures db.tickets.Keys <= Apply(db, call, filter).db.tickets.Keys
    ensures forall id :: id in db.tickets && db.tickets[id].status != New ==>
      Apply(db, call, filter).db.tickets[id].status != New
  {
  }

  /** Any sequence of requests keeps the claimant invariant and never returns a claimed ticket to New. */
  lemma {:induction false} RunPreserves(db: Db, calls: seq<Call>, filter: ClaimFilter)
    requires ClaimConsistent(db.tickets)
    ensures ClaimConsistent(Run(db, calls, filter).tickets)
    ensures db.tickets.Keys <= Run(db, calls, filter).tickets.Keys
    ensures forall id :: id in db.tickets && db.tickets[id].status != New ==>
      Run(db, calls, filter).tickets[id].status != New
    decreases |calls|
  {
    if |calls| > 0 {
      ApplyPreserves(db, calls[0], filter);
      RunPreserves(Apply(db, calls[0], filter).db, calls[1..], filter);
    }
  }

  /** With the conditional update, no request alters a ticket once it has left New. */
  lemma ApplyGuardedKeepsClaimed(db: Db, call: Call)
    ensures forall id :: id in db.tickets && db.tickets[id].status != New ==>
      id in Apply(db, call, IdAndNew).db.tickets && Apply(db, call, IdAndNew).db.tickets[id] == db.tickets[id]
  {
  }

  /**
   * With the conditional update, a claim is final: whatever requests follow,
   * a ticket that has left New keeps its status and its claimant.
   */
  lemma {:induction false} GuardedClaimIsFinal(db: Db, calls: seq<Call>, id: ObjectId)
    requires id in db.tickets && db.tickets[id].status != New
    ensures id in Run(db, calls, IdAndNew).tickets
    ensures Run(db, calls, IdAndNew).tickets[id] == db.tickets[id]
    decreases |calls|
  {
    if |calls| > 0 {
      ApplyGuardedKeepsClaimed(db, calls[0]);
      GuardedClaimIsFinal(Apply(db, calls[0], IdAndNew).db, calls[1..], id);
    }
  }

  /**
   * As written, two tutors claiming the same ticket one after the other both
   * get 200, and the second takes the ticket over, whatever its status was.
   */
  lemma TwoClaimsBothSucceed(db: Db, first: Claim.Request, env1: Env, second: Claim.Request, env2: Env, id: ObjectId)
    requires id in db.tickets
    requires Claim.Authenticated(first, db, env1) && Claim.TargetOf(first.body, env1) == Claim.TicketId(id)
    requires Claim.Authenticated(second, db, env2) && Claim.TargetOf(second.body, env2) == Claim.TicketId(id)
    requires Claim.TutorName(first, db, env1) != Claim.TutorName(second, db, env2)
    requires db.tickets[id].claimedBy != Some(Claim.TutorName(first, db, env1)) || db.tickets[id].status != InProgress
    ensures var out1 := Claim.Handle(first, db, env1);
      var out2 := Claim.Handle(second, out1.db, env2);
      && out1.response == Claim.ClaimedOk
      && out2.response == Claim.ClaimedOk
      && out2.db.tickets[id].status == InProgress
      && out2.db.tickets[id].claimedBy == Some(Claim.TutorName(second, db, env2))
  {
  }

  /**
   * With the conditional update, of two tutors claiming a New ticket one
   * after the other, the first gets 200 and the second 404, and the ticket
   * stays with the first.
   */
  lemma GuardedSecondClaimRefused(db: Db, first: Claim.Request, env1: Env, second: Claim.Request, env2: Env, id: ObjectId)
    requires id in db.tickets && db.tickets[id].status == New
    requires Claim.Authenticated(first, db, env1) && Claim.TargetOf(first.body, env1) == Claim.TicketId(id)
    requires Claim.Authenticated(second, db, env2) && Claim.TargetOf(second.body, env2) == Claim.TicketId(id)
    ensures var out1 := Claim.HandleGuarded(first, db, env1);
      var out2 := Claim.HandleGuarded(second, out1.db, env2);
      && out1.response == Claim.ClaimedOk
      && out2.response == Claim.NotClaimed
      && out2.db.tickets[id].claimedBy == Some(Claim.TutorName(first, db, env1))
  {
  }

  /** The account the seeding script creates can log in with the script's password. */
  lemma SeededAdminCanLogIn(db: Db, seed: SeedUser.Request, envS: Env, hashed: string, envL: Env)
    requires SeedUser.Handle(seed, db, envS, hashed).response.status == 201
    requires envL.bcryptCompare(SeedUser.AdminPassword, hashed) && !envL.storeFails
    ensures var db1 := SeedUser.Handle(seed, db, envS, hashed).db;
      var login := Login.Request("POST", Some(Login.Credentials(Some(SeedUser.AdminUsername), Some(SeedUser.AdminPassword))));
      Login.Handle(login, db1, envL).response.status == 200
  {
  }

  /**
   * The token a login issues, sent back as `Bearer <token>`, identifies the
   * same user to the claim endpoint within the token's hour, provided the
   * verifier accepts every unexpired token the signer produced (same secret)
   * and ids survive formatting.
   */
  lemma LoginTokenAuthenticatesClaim(db: Db, login: Login.Request, envL: Env, claim: Claim.Request, envC: Env)
    requires Login.Handle(login, db, envL).response.status == 200
    requires claim.verb == "POST"
    requires claim.authorization == Some("Bearer " + Login.Handle(login, db, envL).response.body.token)
    requires ' ' !in Login.Handle(login, db, envL).response.body.token
    requires forall c: TokenClaims :: envC.now / 1000 < c.exp ==> envC.jwtVerify(envL.jwtSign(c)) == Some(c)
    requires envC.now < envL.now + (Login.TokenLifetime - 1) * 1000
    requires forall id: ObjectId :: envC.parseObjectId(envL.formatObjectId(id)) == Some(id)
    requires !envC.storeFails
    ensures Claim.Authenticated(claim, db, envC)
    ensures Claim.TutorName(claim, db, envC) == login.body.value.username.value
  {
    var token := Login.Handle(login, db, envL).response.body.token;
    Text.BearerTokenOfBearer(token);
  }
}

=== FILE: login.dfy ===
/**
 * `/api/login`: exchange a username and password for a JWT carrying the
 * user's id and role, valid for one hour.
 */
module Login {
  import opened Wrappers
  import opened Model
  import opened Text
  import Store

  /** The JSON body: `{ username, password }`, either possibly absent. */
  datatype Credentials = Credentials(username: Option<string>, password: Option<string>)

  /** A request. A body of None is one that does not parse or destructure (it throws). */
  datatype Request = Request(verb: string, body: Option<Credentials>)

  const CredentialsRequired := Response(400, ErrorBody("Username and password required"))
  const InvalidCredentials := Response(401, ErrorBody("Invalid credentials"))
  const ServerError := Response(500, ErrorBody("Internal server error"))
  const LoginMessage := "Login successful"

  /** `expiresIn: '1h'`, in seconds. */
  const TokenLifetime := 3600

  /** A POST whose body holds a non-empty username and password. */
  predicate WellFormed(req: Request) {
    req.verb == "POST" && req.body.Some? && Truthy(req.body.value.username) && Truthy(req.body.value.password)
  }

  /** The claims `jwt.sign({ userId, role }, secret, { expiresIn: '1h' })` puts in the token. */
  function ClaimsFor(id: ObjectId, user: User, env: Env): (c: TokenClaims)
    ensures c.userId == env.formatObjectId(id) && c.role == user.role
    ensures c.exp - c.iat == TokenLifetime && c.iat * 1000 <= env.now < (c.iat + 1) * 1000
  {
    var iat := env.now / 1000;
    TokenClaims(env.formatObjectId(id), user.role, iat, iat + TokenLifetime)
  }

  function Handle(req: Request, db: Db, env: Env): (out: Outcome)
    ensures out.db == db
    ensures req.verb != "POST" ==> out.response == MethodNotAllowed
    ensures out.response.status in {200, 400, 401, 405, 500}
    ensures out.response.status == 400 <==> req.verb == "POST" && req.body.Some? && !WellFormed(req)
    ensures out.response.status == 400 ==> out.response == CredentialsRequired
    ensures out.response.status == 500 <==> req.verb == "POST" && (req.body.None? || (WellFormed(req) && env.storeFails))
    ensures out.response.status == 500 ==> out.response == ServerError
    ensures out.response.status == 401 ==> out.response == InvalidCredentials
    ensures WellFormed(req) && !env.storeFails ==>
      var name := req.body.value.username.value;
      var found := Store.FindByUsername(db.users, name);
      && (out.response.status == 401 <==>
            found.None? || !env.bcryptCompare(req.body.value.password.value, db.users[found.value].password))
      && (out.response.status == 200 <==>
            found.Some? && env.bcryptCompare(req.body.value.password.value, db.users[found.value].password))
    ensures out.response.status == 200 ==>
      && WellFormed(req) && !env.storeFails
      && var id := Store.FindByUsername(db.users, req.body.value.username.value).value;
      && id in db.users && db.users[id].username == req.body.value.username.value
      && out.response.body == TokenIssued(env.jwtSign(ClaimsFor(id, db.users[id], env)), LoginMessage)
  {
    if req.verb != "POST" then Outcome(MethodNotAllowed, db)
    else
      match req.body
      case None => Outcome(ServerError, db)
      case Some(creds) =>
        if !Truthy(creds.username) || !Truthy(creds.password) then Outcome(CredentialsRequired, db)
        else if env.storeFails then Outcome(ServerError, db)
        else
          match Store.FindByUsername(db.users, creds.username.value)
          case None => Outcome(InvalidCredentials, db)
          case Some(id) =>
            var user := db.users[id];
            if !env.bcryptCompare(creds.password.value, user.password) then Outcome(InvalidCredentials, db)
            else
              var token := env.jwtSign(ClaimsFor(id, user, env));
              Outcome(Response(200, TokenIssued(token, LoginMessage)), db)
  }

  /**
   * An unknown username and a wrong password for a known one get the same
   * response, so the caller cannot tell which usernames exist.
   */
  lemma FailuresIndistinguishable(unknown: Request, wrong: Request, db: Db, env: Env)
    requires WellFormed(unknown) && WellFormed(wrong) && !env.storeFails
    requires forall id :: id in db.users ==> db.users[id].username != unknown.body.value.username.value
    requires forall id :: id in db.users && db.users[id].username == wrong.body.value.username.value ==>
      !env.bcryptCompare(wrong.body.value.password.value, db.users[id].password)
    ensures Handle(unknown, db, env).response == Handle(wrong, db, env).response == InvalidCredentials
  {
  }
}

=== FILE: model.dfy ===
/**
 * The documents the help queue stores, the responses its handlers send, and
 * the external collaborators (JWT, bcrypt, ObjectId, clock, database faults)
 * a handler consults, passed in explicitly as an environment.
 */
module Model {
  import opened Wrappers

  /** A MongoDB `_id`. Ids are opaque; numbers stand in for the 12-byte values. */
  type ObjectId = nat

  /** The five values of a ticket's `status` field ('In Progress' is `InProgress`). */
  datatype Status = New | InProgress | Complete | Closed | Missed

  /** A document of the `tickets` collection (its `_id` is the key it is stored under). */
  datatype Ticket = Ticket(
    studentName: string,
    className: string,
    problem: string,
    stepsTaken: string,
    status: Status,
    createdAt: nat,               // milliseconds, `new Date()` at creation
    claimedBy: Option<string>,    // a tutor's username, or null
    notes: Option<string>)        // tutor notes, or null

  /** A document of the `users` collection. */
  datatype User = User(
    username: string,
    password: string,             // a bcrypt hash
    role: string,
    createdAt: Option<nat>)       // only records written by the seeding script carry one

  /** The `tutoring_system` database: both collections, keyed by `_id`. */
  datatype Db = Db(tickets: map<ObjectId, Ticket>, users: map<ObjectId, User>)

  /** The JSON payload of a JWT, as `jwt.verify` returns it. */
  datatype TokenClaims = TokenClaims(userId: string, role: string, iat: int, exp: int)

  /** The JSON bodies the handlers send. */
  datatype Body =
    | ErrorBody(error: string)
    | MessageBody(message: string)
    | TicketCreated(message: string, ticketId: ObjectId)
    | TicketList(tickets: seq<(ObjectId, Ticket)>)
    | TokenIssued(token: string, message: string)

  datatype Response = Response(status: nat, body: Body)

  /** What a handler produces: the response and the database as it leaves it. */
  datatype Outcome = Outcome(response: Response, db: Db)

  /**
   * Everything outside the handler's own code that decides its behaviour on
   * one request. `storeFails` says that some database call of this request
   * throws; `nextId` is the `_id` the driver gives the next inserted
   * document; `now` is `Date.now()`.
   */
  datatype Env = Env(
    now: nat,
    nextId: ObjectId,
    storeFails: bool,
    parseObjectId: string -> Option<ObjectId>,     // `new ObjectId(s)`; None when it throws
    formatObjectId: ObjectId -> string,            // the hex string an id serialises to
    jwtSign: TokenClaims -> string,                // `jwt.sign` with the server's secret
    jwtVerify: string -> Option<TokenClaims>,      // `jwt.verify`; None when it throws
    bcryptCompare: (string, string) -> bool)       // `bcrypt.compare(plain, hash)`

  /** The response every handler sends to a method it does not serve. */
  const MethodNotAllowed := Response(405, ErrorBody("Method not allowed"))

}

=== FILE: scenario.dfy ===
/**
 * A concrete run: Ann's ticket is claimed by Josh, then by Mia. As written
 * Mia's claim succeeds and takes the ticket; with the conditional update it
 * is refused and the ticket stays with Josh.
 */
module Scenario {
  import opened Wrappers
  import opened Model
  import Claim
  import Text
  import Lifecycle

  const AnnTicket := Ticket("Ann", "CS 141", "segfault", "checked pointers", New, 0, None, None)

  /** Ticket 7 is Ann's; users 1 and 2 are the tutors Josh and Mia. */
  const Start := Db(
    map[7 := AnnTicket],
    map[1 := User("Josh", "josh-hash", "tutor", None), 2 := User("Mia", "mia-hash", "tutor", None)])

  /** Tokens "josh-token" and "mia-token" verify to users "1" and "2"; the ids "1", "2", "7" parse. */
  const Context := Env(
    1000, 8, false,
    s => if s == "1" then Some(1) else if s == "2" then Some(2) else if s == "7" then Some(7) else None,
    id => if id == 1 then "1" else if id == 2 then "2" else "7",
    c => "signed",
    t => if t == "josh-token" then Some(TokenClaims("1", "tutor", 0, 3600))
         else if t == "mia-token" then Some(TokenClaims("2", "tutor", 0, 3600))
         else None,
    (plain, hash) => false)

  function ClaimAs(token: string): Claim.Request {
    Claim.Request("POST", Some("Bearer " + token), Some(Claim.ClaimBody(Some("7"))))
  }

  /** A tutor's claim request authenticates as that tutor and targets ticket 7. */
  lemma TutorAuthenticates(token: string, userId: string, id: ObjectId, name: string)
    requires ' ' !in token
    requires Context.jwtVerify(token) == Some(TokenClaims(userId, "tutor", 0, 3600))
    requires Context.parseObjectId(userId) == Some(id)
    requires id in Start.users && Start.users[id].username == name
    ensures Claim.Authenticated(ClaimAs(token), Start, Context)
    ensures Claim.TutorName(ClaimAs(token), Start, Context) == name
    ensures Claim.TargetOf(ClaimAs(token).body, Context) == Claim.TicketId(7)
  {
    Text.BearerTokenOfBearer(token);
    assert Context.parseObjectId("7") == Some(7);
  }

  /** As written: both claims answer 200 and Mia ends up holding Josh's ticket. */
  lemma MiaTakesOverJoshsTicket()
    ensures var afterJosh := Claim.Handle(ClaimAs("josh-token"), Start, Context);
      var afterMia := Claim.Handle(ClaimAs("mia-token"), afterJosh.db, Context);
      && afterJosh.response == Claim.ClaimedOk
      && afterJosh.db.tickets[7].claimedBy == Some("Josh")
      && afterMia.response == Claim.ClaimedOk
      && afterMia.db.tickets[7].claimedBy == Some("Mia")
  {
    TutorAuthenticates("josh-token", "1", 1, "Josh");
    TutorAuthenticates("mia-token", "2", 2, "Mia");
    Lifecycle.TwoClaimsBothSucceed(Start, ClaimAs("josh-token"), Context, ClaimAs("mia-token"), Context, 7);
  }

  /** With the conditional update: Josh's claim answers 200, Mia's 404, and Josh keeps the ticket. */
  lemma MiaRefusedWhenGuarded()
    ensures var afterJosh := Claim.HandleGuarded(ClaimAs("josh-token"), Start, Context);
      var afterMia := Claim.HandleGuarded(ClaimAs("mia-token"), afterJosh.db, Context);
      && afterJosh.response == Claim.ClaimedOk
      && afterMia.response == Claim.NotClaimed
      && afterMia.db.tickets[7].claimedBy == Some("Josh")
  {
    TutorAuthenticates("josh-token", "1", 1, "Josh");
    TutorAuthenticates("mia-token", "2", 2, "Mia");
    Lifecycle.GuardedSecondClaimRefused(Start, ClaimAs("josh-token"), Context, ClaimAs("mia-token"), Context, 7);
  }
}

=== FILE: seed_user.dfy ===
/**
 * `/api/seed-user`: a local-only script that creates the `tutor_admin`
 * account once. Any HTTP method is served.
 */
module SeedUser {
  import opened Wrappers
  import opened Model
  import opened Text
  import Store

  /** A request: only the Host header matters. */
  datatype Request = Request(host: Option<string>)

  const AdminUsername := "tutor_admin"
  /** The plain password the script hashes; the hash is the `hashed` parameter below. */
  const AdminPassword := "F@nt@st!cF0ur"
  const AdminRole := "admin"

  const LocalOnly := Response(403, ErrorBody("This script can only be run locally"))
  const AlreadyExists := Response(400, MessageBody("User already exists!"))
  const CreateFailed := Response(500, ErrorBody("Failed to create user"))
  const AdminCreated := Response(201, MessageBody("User 'tutor_admin' created successfully!"))

  /** Some user record is named `tutor_admin`. */
  predicate HasAdmin(users: map<ObjectId, User>) {
    exists id :: id in users && users[id].username == AdminUsername
  }

  /** The Host header names localhost somewhere. */
  ghost predicate FromLocalhost(req: Request) {
    req.host.Some? && exists i :: OccursAt(req.host.value, "localhost", i)
  }

  /**
   * The handler; `hashed` is what `bcrypt.hash(AdminPassword, 10)` returned
   * (a salted hash, so not a function of the password alone).
   */
  function Handle(req: Request, db: Db, env: Env, hashed: string): (out: Outcome)
    ensures out.db.tickets == db.tickets
    ensures out.response.status in {201, 400, 403, 500}
    ensures out.response.status == 403 <==> !FromLocalhost(req)
    ensures out.response.status == 403 ==> out.response == LocalOnly
    ensures out.response.status != 201 ==> out.db == db
    ensures out.response.status == 500 ==> out.response == CreateFailed
    ensures out.response.status == 400 <==> FromLocalhost(req) && !env.storeFails && HasAdmin(db.users)
    ensures out.response.status == 400 ==> out.response == AlreadyExists
    ensures out.response.status == 201 <==>
      FromLocalhost(req) && !env.storeFails && !HasAdmin(db.users) && env.nextId !in db.users
    ensures out.response.status == 201 ==>
      && out.response == AdminCreated
      && out.db.users.Keys == db.users.Keys + {env.nextId}
      && (forall id :: id in db.users ==> out.db.users[id] == db.users[id])
      && out.db.users[env.nextId] == User(AdminUsername, hashed, AdminRole, Some(env.now))
  {
    if req.host.None? then Outcome(LocalOnly, db)
    else
      ContainsIffOccurs(req.host.value, "localhost");
      if !Contains(req.host.value, "localhost") then Outcome(LocalOnly, db)
      else if env.storeFails then Outcome(CreateFailed, db)
      else if Store.FindByUsername(db.users, AdminUsername).Some? then Outcome(AlreadyExists, db)
      else
        var admin := User(AdminUsername, hashed, AdminRole, Some(env.now));
        match Store.InsertOne(db.users, env.nextId, admin)
        case None => Outcome(CreateFailed, db)
        case Some(users) => Outcome(AdminCreated, db.(users := users))
  }

  /** The ids of the records named `tutor_admin`. */
  function Admins(users: map<ObjectId, User>): set<ObjectId> {
    Store.Named(users, AdminUsername)
  }

  /** Seeding never creates a second `tutor_admin`: at most one stays at most one. */
  lemma {:induction false} SeedKeepsAdminUnique(req: Request, db: Db, env: Env, hashed: string)
    requires |Admins(db.users)| <= 1
    ensures |Admins(Handle(req, db, env, hashed).db.users)| <= 1
    ensures Handle(req, db, env, hashed).response.status == 201 ==>
      Admins(Handle(req, db, env, hashed).db.users) == {env.nextId}
  {
    var out := Handle(req, db, env, hashed);
    if out.response.status == 201 {
      assert forall id :: id in db.users ==> db.users[id].username != AdminUsername;
      assert Admins(out.db.users) == {env.nextId};
    } else {
      assert out.db == db;
    }
  }

  /** A second run after a successful one answers 400 and changes nothing. */
  lemma SecondSeedRefused(req: Request, db: Db, env1: Env, env2: Env, hashed1: string, hashed2: string)
    requires Handle(req, db, env1, hashed1).response.status == 201
    requires !env2.storeFails
    ensures var db1 := Handle(req, db, env1, hashed1).db;
      Handle(req, db1, env2, hashed2) == Outcome(AlreadyExists, db1)
  {
  }
}

=== FILE: store.dfy ===
/**
 * The three MongoDB collection operations the handlers rely on, with the
 * driver's semantics: `insertOne` (refusing a duplicate `_id`), `findOne`
 * by username, and `updateOne` with a `$set` of the claim fields, whose
 * `modifiedCount` is 0 when the `$set` writes the values already stored.
 */
module Store {
  import opened Wrappers
  import opened Model

  /** The least of a non-empty set of ids. */
  ghost function Least(s: set<ObjectId>): (m: ObjectId)
    requires s != {}
    ensures m in s && forall j :: j in s ==> m <= j
    decreases s
  {
    var x :| x in s;
    var rest := s - {x};
    if rest == {} then
      assert s == {x};
      x
    else
      var m := Least(rest);
      assert forall j :: j in s ==> j == x || j in rest;
      if x < m then x else m
  }

  /**
   * `insertOne(doc)` under the driver-assigned `_id`: None models the
   * duplicate-key error the server raises when the id is already taken.
   */
  function InsertOne<T>(coll: map<ObjectId, T>, id: ObjectId, doc: T): (r: Option<map<ObjectId, T>>)
    ensures r.Some? <==> id !in coll
    ensures r.Some? ==> r.value.Keys == coll.Keys + {id} && r.value[id] == doc
    ensures r.Some? ==> forall k :: k in coll ==> r.value[k] == coll[k]
  {
    if id in coll then None else Some(coll[id := doc])
  }

  /** The users whose `username` field equals `name`. */
  function Named(users: map<ObjectId, User>, name: string): set<ObjectId> {
    set id | id in users && users[id].username == name
  }

  /**
   * `users.findOne({ username: name })`: the first matching record in
   * natural order, which for ids the driver generates is the oldest, so the
   * least id.
   */
  function FindByUsername(users: map<ObjectId, User>, name: string): (r: Option<ObjectId>)
    ensures r.None? <==> forall id :: id in users ==> users[id].username != name
    ensures r.Some? ==> r.value in users && users[r.value].username == name
    ensures r.Some? ==> forall id :: id in users && users[id].username == name ==> r.value <= id
  {
    var matches := Named(users, name);
    assert forall id :: id in users && users[id].username == name ==> id in matches;
    if matches == {} then
      None
    else
      assert Least(matches) in matches;
      var m :| m in matches && forall j :: j in matches ==> m <= j;
      Some(m)
  }

  /** What `updateOne` reports and the collection it leaves behind. */
  datatype UpdateResult = UpdateResult(matchedCount: nat, modifiedCount: nat, tickets: map<ObjectId, Ticket>)

  /** The ticket as `$set: { status: 'In Progress', claimedBy: name }` leaves it. */
  function Claimed(t: Ticket, name: string): Ticket {
    t.(status := InProgress, claimedBy := Some(name))
  }

  /**
   * `tickets.updateOne(filter, { $set: { status: 'In Progress', claimedBy: name } })`
   * where the filter is `{ _id: id }`, extended with `status: s` when
   * `requiredStatus` is `Some(s)`. A matched document whose fields already
   * hold the new values is not modified.
   */
  function SetClaim(tickets: map<ObjectId, Ticket>, id: ObjectId, requiredStatus: Option<Status>, name: string): (r: UpdateResult)
    ensures r.matchedCount <= 1 && r.modifiedCount <= r.matchedCount
    ensures r.matchedCount == 1 <==> id in tickets && (requiredStatus.None? || tickets[id].status == requiredStatus.value)
    ensures r.modifiedCount == 1 <==>
      r.matchedCount == 1 && (tickets[id].status != InProgress || tickets[id].claimedBy != Some(name))
    ensures r.modifiedCount == 0 ==> r.tickets == tickets
    ensures r.modifiedCount == 1 ==>
      && r.tickets.Keys == tickets.Keys
      && r.tickets[id].status == InProgress
      && r.tickets[id].claimedBy == Some(name)
      && r.tickets[id] == tickets[id].(status := r.tickets[id].status, claimedBy := r.tickets[id].claimedBy)
      && forall k :: k in tickets && k != id ==> r.tickets[k] == tickets[k]
  {
    if id !in tickets || (requiredStatus.Some? && tickets[id].status != requiredStatus.value) then
      UpdateResult(0, 0, tickets)
    else if Claimed(tickets[id], name) == tickets[id] then
      UpdateResult(1, 0, tickets)
    else
      UpdateResult(1, 1, tickets[id := Claimed(tickets[id], name)])
  }
}

=== FILE: text.dfy ===
/**
 * The few string operations the handlers perform: JavaScript truthiness of an
 * optional string, `String.prototype.includes`, and `split(' ')[1]` used to
 * strip the `Bearer ` prefix from an Authorization header.
 */
module Text {
  import opened Wrappers

  /** `!!x` for a value that is either absent or a string: only a non-empty string is truthy. */
  predicate Truthy(x: Option<string>) {
    x.Some? && x.value != ""
  }

  /** `sub` occurs in `s` at position `i`. */
  ghost predicate OccursAt(s: string, sub: string, i: int) {
    0 <= i && i + |sub| <= |s| && s[i..i + |sub|] == sub
  }

  /** `s.includes(sub)`: a left-to-right scan for `sub`. */
  function Contains(s: string, sub: string): bool
    decreases |s|
  {
    if |sub| > |s| then false
    else if s[..|sub|] == sub then true
    else Contains(s[1..], sub)
  }

  /** The scan finds `sub` exactly when it occurs somewhere in `s`. */
  lemma {:induction false} ContainsIffOccurs(s: string, sub: string)
    ensures Contains(s, sub) <==> exists i :: OccursAt(s, sub, i)
    decreases |s|
  {
    if |sub| <= |s| {
      if s[..|sub|] == sub {
        assert OccursAt(s, sub, 0);
      } else {
        ContainsIffOccurs(s[1..], sub);
        if Contains(s[1..], sub) {
          var i :| OccursAt(s[1..], sub, i);
          assert s[1..][i..i + |sub|] == s[i + 1..i + 1 + |sub|];
          assert OccursAt(s, sub, i + 1);
        }
        if exists i :: OccursAt(s, sub, i) {
          var i :| OccursAt(s, sub, i);
          assert i != 0;
          assert s[1..][i - 1..i - 1 + |sub|] == s[i..i + |sub|];
          assert OccursAt(s[1..], sub, i - 1);
        }
      }
    }
  }

  /** `s.split(sep)`: the maximal separator-free pieces of `s`, in order. */
  function Split(s: string, sep: char): (parts: seq<string>)
    ensures |parts| >= 1
    ensures forall i :: 0 <= i < |parts| ==> sep !in parts[i]
    decreases |s|
  {
    if |s| == 0 then [""]
    else
      var rest := Split(s[1..], sep);
      if s[0] == sep then [""] + rest
      else [[s[0]] + rest[0]] + rest[1..]
  }

  /** `parts.join(sep)`. */
  function Join(parts: seq<string>, sep: char): string
    requires |parts| >= 1
    decreases |parts|
  {
    if |parts| == 1 then parts[0]
    else parts[0] + [sep] + Join(parts[1..], sep)
  }

  /** Splitting loses nothing: joining the pieces rebuilds the string. */
  lemma {:induction false} JoinSplit(s: string, sep: char)
    ensures Join(Split(s, sep), sep) == s
    decreases |s|
  {
    if |s| > 0 {
      JoinSplit(s[1..], sep);
      var rest := Split(s[1..], sep);
      if s[0] == sep {
        assert ([""] + rest)[1..] == rest;
      } else {
        var parts := [[s[0]] + rest[0]] + rest[1..];
        if |rest| == 1 {
          assert parts == [[s[0]] + rest[0]];
        } else {
          assert parts[1..] == rest[1..];
          assert Join(rest, sep) == rest[0] + [sep] + Join(rest[1..], sep);
        }
      }
    }
  }

  /** A piece that holds no separator and is followed by a separator splits off first. */
  lemma {:induction false} SplitAfterWord(w: string, sep: char, rest: string)
    requires sep !in w
    ensures Split(w + [sep] + rest, sep) == [w] + Split(rest, sep)
    decreases |w|
  {
    var s := w + [sep] + rest;
    if |w| == 0 {
      assert s[1..] == rest;
    } else {
      assert s[1..] == w[1..] + [sep] + rest;
      SplitAfterWord(w[1..], sep, rest);
      assert [w[0]] + w[1..] == w;
    }
  }

  /** A separator-free string is a single piece. */
  lemma {:induction false} SplitWord(w: string, sep: char)
    requires sep !in w
    ensures Split(w, sep) == [w]
    decreases |w|
  {
    if |w| > 0 {
      SplitWord(w[1..], sep);
      assert [w[0]] + w[1..] == w;
    }
  }

  /** Joining separator-free pieces and splitting again gives the pieces back. */
  lemma {:induction false} SplitJoin(parts: seq<string>, sep: char)
    requires |parts| >= 1
    requires forall i :: 0 <= i < |parts| ==> sep !in parts[i]
    ensures Split(Join(parts, sep), sep) == parts
    decreases |parts|
  {
    if |parts| == 1 {
      SplitWord(parts[0], sep);
    } else {
      SplitJoin(parts[1..], sep);
      SplitAfterWord(parts[0], sep, Join(parts[1..], sep));
      assert [parts[0]] + parts[1..] == parts;
    }
  }

  /**
   * `header.split(' ')[1]`: the second space-separated piece, or `undefined`
   * (None) when the header holds no space.
   */
  function BearerToken(header: string): (token: Option<string>)
    ensures token.Some? <==> ' ' in header
    ensures token.Some? ==> ' ' !in token.value
  {
    var parts := Split(header, ' ');
    JoinSplit(header, ' ');
    if |parts| > 1 then Some(parts[1]) else None
  }

  /** The header the dashboard sends, `Bearer <token>`, yields the token back. */
  lemma BearerTokenOfBearer(token: string)
    requires ' ' !in token
    ensures BearerToken("Bearer " + token) == Some(token)
  {
    SplitJoin(["Bearer", token], ' ');
    assert Join(["Bearer", token], ' ') == "Bearer " + token;
  }
}

=== FILE: tickets.dfy ===
/**
 * `/api/tickets`: a student's POST creates a ticket, a GET lists every
 * ticket newest first, any other method is refused.
 */
module Tickets {
  import opened Wrappers
  import opened Model
  import opened Text
  import Store

  /** The four text fields of a submission; each may be absent from the JSON body. */
  datatype TicketFields = TicketFields(
    studentName: Option<string>,
    className: Option<string>,
    problem: Option<string>,
    stepsTaken: Option<string>)

  /** A request to the endpoint. A body of None is one that does not parse (or is null). */
  datatype Request = Request(verb: string, body: Option<TicketFields>)

  const FieldsRequired := Response(400, ErrorBody("All fields are required."))
  const SaveFailed := Response(500, ErrorBody("Failed to save ticket"))
  const FetchFailed := Response(500, ErrorBody("Failed to fetch tickets"))

  /** All four fields are present and non-empty. */
  predicate Filled(f: TicketFields) {
    Truthy(f.studentName) && Truthy(f.className) && Truthy(f.problem) && Truthy(f.stepsTaken)
  }

  /** The document a valid submission becomes. */
  function NewTicket(f: TicketFields, now: nat): Ticket
    requires Filled(f)
  {
    Ticket(f.studentName.value, f.className.value, f.problem.value, f.stepsTaken.value,
           New, now, None, None)
  }

  /** The POST branch: validate, build the ticket with its defaults, insert it. */
  function Create(body: Option<TicketFields>, db: Db, env: Env): (out: Outcome)
    ensures out.response.status in {201, 400, 500}
    ensures out.db.users == db.users
    ensures out.response.status != 201 ==> out.db == db
    ensures out.response.status == 400 <==> body.Some? && !Filled(body.value)
    ensures out.response.status == 400 ==> out.response == FieldsRequired
    ensures out.response.status == 500 ==> out.response == SaveFailed
    ensures out.response.status == 201 <==>
      body.Some? && Filled(body.value) && !env.storeFails && env.nextId !in db.tickets
    ensures out.response.status == 201 ==>
      && out.response.body == TicketCreated("Ticket created", env.nextId)
      && out.db.tickets.Keys == db.tickets.Keys + {env.nextId}
      && (forall id :: id in db.tickets ==> out.db.tickets[id] == db.tickets[id])
    ensures out.response.status == 201 ==>
      var t := out.db.tickets[env.nextId];
      && t.status == New && t.claimedBy == None && t.notes == None
      && t.createdAt == env.now
      && Some(t.studentName) == body.value.studentName
      && Some(t.className) == body.value.className
      && Some(t.problem) == body.value.problem
      && Some(t.stepsTaken) == body.value.stepsTaken
  {
    match body
    case None => Outcome(SaveFailed, db)
    case Some(f) =>
      if !Filled(f) then Outcome(FieldsRequired, db)
      else if env.storeFails then Outcome(SaveFailed, db)
      else
        match Store.InsertOne(db.tickets, env.nextId, NewTicket(f, env.now))
        case None => Outcome(SaveFailed, db)
        case Some(tickets) =>
          Outcome(Response(201, TicketCreated("Ticket created", env.nextId)), db.(tickets := tickets))
  }

  /** Ticket `a` sorts no later than ticket `b`: newer first, ties by id. */
  predicate SortsBefore(m: map<ObjectId, Ticket>, a: ObjectId, b: ObjectId)
    requires a in m && b in m
  {
    m[a].createdAt > m[b].createdAt || (m[a].createdAt == m[b].createdAt && a <= b)
  }

  /** A key that sorts before every other key of a non-empty collection. */
  ghost function First(m: map<ObjectId, Ticket>): (k: ObjectId)
    requires |m| > 0
    ensures k in m && forall j :: j in m ==> SortsBefore(m, k, j)
    decreases |m|
  {
    var x :| x in m;
    var rest := m - {x};
    if |rest| == 0 then
      assert m.Keys == {x};
      x
    else
      var k := First(rest);
      assert forall j :: j in m ==> j == x || j in rest;
      if SortsBefore(m, x, k) then x else k
  }

  /** The newest ticket of a non-empty collection (least id among equally new ones). */
  function Newest(m: map<ObjectId, Ticket>): (k: ObjectId)
    requires |m| > 0
    ensures k in m && forall j :: j in m ==> m[k].createdAt >= m[j].createdAt
  {
    assert First(m) in m;
    var k :| k in m && forall j :: j in m ==> SortsBefore(m, k, j);
    k
  }

  /** Every entry of `l` is a stored ticket under its own id. */
  ghost predicate Members(l: seq<(ObjectId, Ticket)>, m: map<ObjectId, Ticket>) {
    forall i :: 0 <= i < |l| ==> l[i].0 in m && m[l[i].0] == l[i].1
  }

  /** No id appears twice in `l`. */
  ghost predicate Distinct(l: seq<(ObjectId, Ticket)>) {
    forall i, j :: 0 <= i < j < |l| ==> l[i].0 != l[j].0
  }

  /** Every stored id appears in `l`. */
  ghost predicate Covers(l: seq<(ObjectId, Ticket)>, m: map<ObjectId, Ticket>) {
    forall id :: id in m ==> exists i :: 0 <= i < |l| && l[i].0 == id
  }

  /** `l` holds every stored ticket exactly once, each under its own id. */
  ghost predicate ListsAll(l: seq<(ObjectId, Ticket)>, m: map<ObjectId, Ticket>) {
    |l| == |m| && Members(l, m) && Distinct(l) && Covers(l, m)
  }

  /** `l` is ordered by `createdAt`, most recent first. */
  ghost predicate NewestFirst(l: seq<(ObjectId, Ticket)>) {
    forall i, j :: 0 <= i < j < |l| ==> l[i].1.createdAt >= l[j].1.createdAt
  }

  /** Putting a stored ticket in front of a listing of the rest keeps every entry a stored ticket. */
  lemma MembersStep(m: map<ObjectId, Ticket>, k: ObjectId, tail: seq<(ObjectId, Ticket)>)
    requires k in m && Members(tail, m - {k})
    ensures Members([(k, m[k])] + tail, m)
  {
  }

  /** Putting a ticket in front of a duplicate-free listing of the rest keeps it duplicate-free. */
  lemma DistinctStep(m: map<ObjectId, Ticket>, k: ObjectId, tail: seq<(ObjectId, Ticket)>)
    requires k in m && Members(tail, m - {k}) && Distinct(tail)
    ensures Distinct([(k, m[k])] + tail)
  {
  }

  /** Putting a ticket in front of a listing that covers the rest covers the whole collection. */
  lemma CoversStep(m: map<ObjectId, Ticket>, k: ObjectId, tail: seq<(ObjectId, Ticket)>)
    requires k in m && Covers(tail, m - {k})
    ensures Covers([(k, m[k])] + tail, m)
  {
    var l := [(k, m[k])] + tail;
    forall id | id in m
      ensures exists i :: 0 <= i < |l| && l[i].0 == id
    {
      if id == k {
        assert l[0].0 == id;
      } else {
        assert id in m - {k};
        var i :| 0 <= i < |tail| && tail[i].0 == id;
        assert l[i + 1].0 == id;
      }
    }
  }

  /** Putting the newest ticket in front of a newest-first listing of the rest keeps it newest first. */
  lemma NewestFirstStep(m: map<ObjectId, Ticket>, k: ObjectId, tail: seq<(ObjectId, Ticket)>)
    requires k in m && forall j :: j in m ==> m[k].createdAt >= m[j].createdAt
    requires Members(tail, m - {k}) && NewestFirst(tail)
    ensures NewestFirst([(k, m[k])] + tail)
  {
  }

  /** `find({}).sort({ createdAt: -1 })`. */
  function Listing(m: map<ObjectId, Ticket>): (l: seq<(ObjectId, Ticket)>)
    ensures ListsAll(l, m)
    ensures NewestFirst(l)
    decreases |m|
  {
    if |m| == 0 then []
    else
      var k := Newest(m);
      var rest := m - {k};
      assert |rest| == |m| - 1;
      var tail := Listing(rest);
      MembersStep(m, k, tail);
      DistinctStep(m, k, tail);
      CoversStep(m, k, tail);
      NewestFirstStep(m, k, tail);
      [(k, m[k])] + tail
  }

  /** The GET branch: a snapshot of all tickets, newest first. */
  function List(db: Db, env: Env): (out: Outcome)
    ensures out.db == db
    ensures out.response.status in {200, 500}
    ensures out.response.status == 500 <==> env.storeFails
    ensures out.response.status == 500 ==> out.response == FetchFailed
    ensures out.response.status == 200 ==>
      out.response.body.TicketList?
      && ListsAll(out.response.body.tickets, db.tickets)
      && NewestFirst(out.response.body.tickets)
  {
    if env.storeFails then Outcome(FetchFailed, db)
    else Outcome(Response(200, TicketList(Listing(db.tickets))), db)
  }

  /** The endpoint: POST creates, GET lists, anything else is refused with 405. */
  function Handle(req: Request, db: Db, env: Env): (out: Outcome)
    ensures out.db.users == db.users
    ensures out.response.status != 201 ==> out.db == db
    ensures req.verb != "POST" && req.verb != "GET" ==> out.response == MethodNotAllowed
    ensures forall id :: id in db.tickets ==> id in out.db.tickets && out.db.tickets[id] == db.tickets[id]
    ensures forall id :: id in out.db.tickets && id !in db.tickets ==>
      out.db.tickets[id].status == New && out.db.tickets[id].claimedBy.None?
    ensures out.response.status == 201 ==>
      req.verb == "POST" && |out.db.tickets| == |db.tickets| + 1
  {
    if req.verb == "POST" then Create(req.body, db, env)
    else if req.verb == "GET" then List(db, env)
    else Outcome(MethodNotAllowed, db)
  }
}

=== FILE: wrappers.dfy ===
/** Optional values: the model's stand-in for JavaScript's `undefined`/`null`. */
module Wrappers {

  datatype Option<+T> = None | Some(value: T)
}
